=== FILE: README.md ===
# linkz link bookkeeping, modelled in Dafny

linkz polls one web page on a fixed interval. It prints every link on the page
that it has not printed before. This project models the pure part of that loop,
all of it in `src/main.rs`:

- `diff` computes the fetched links that are not yet in the seen list, in fetch
  order (module `LinkDiff`).
- The post-parse half of `fetch_links` normalizes every anchor `href`, drops the
  links holding an entry of `default_exclusions`, sorts, and removes duplicates
  (modules `Extraction` and `Sorting`).
- The body of the task spawned on each tick handles three cases (module
  `Poller`): a successful fetch appends the new links and prints them; an empty
  diff returns early; an error prints one `Error: ...` line. The task holds the
  tokio mutex over the seen list from the fetch to the last push, so the
  critical sections of the ticks run one after another. A run of ticks is
  therefore the sequential fold `Run` of `Tick`, in lock order. (`Run` folds
  `Section`, the body of `Tick` without its contract, so that proofs about
  runs unfold only what they need.)

The `url` crate stays abstract. `UrlOps` carries two function values:
`isValid`, which stands for `validate_url`, and `join`, which stands for
`create_absolute_url` and may fail. The HTTP request and the HTML parse are
also not modelled. Each tick takes a `Page` as input: either the anchors'
`href` values in document order, or the fetch error as text.

`String` ordering in Rust compares UTF-8 bytes. UTF-8 preserves the order of
Unicode scalar values, so `StringOrder.LexLe` compares Dafny characters
lexicographically, with a proper prefix first. That gives the same order.

In two places the code behaves differently from what a reader might expect. The model follows the code:

- A `href` that can be neither validated nor joined makes
  `create_absolute_url(...).unwrap()` panic (`src/main.rs:115`). The link is
  not skipped. The panic unwinds the spawned task before anything is pushed,
  and the tokio mutex is released without poisoning. So such a tick
  (`Fetched.Panicked`) leaves the seen list unchanged and prints nothing.
- The exclusion filter is applied to the normalized string
  (`src/main.rs:118`), after the `map`. It is not applied to the raw `href`.

## Model

| member | source | states |
|---|---|---|
| LinkDiff.Diff | src/main.rs:54-62 | `diff(old, new)`: never longer than the fetched list, and holds only fetched links absent from `old`; `DiffMembership`, `DiffMultiplicity` and `DiffIsSubsequence` pin it down as the unseen links with every occurrence, in fetch order |
| LinkDiff.DiffMembership | src/main.rs:54-62 | a link is in `diff(seen, links)` exactly when it is in `links` and not in `seen` |
| LinkDiff.DiffMultiplicity | src/main.rs:54-62 | every unseen link keeps all of its occurrences in `links`, and every seen link has none |
| LinkDiff.DiffIsSubsequence | src/main.rs:54-62 | the diff keeps the order of `links`: it is a subsequence of `links`, so it is never longer |
| LinkDiff.DiffAppend | src/main.rs:56-60 | the loop handles each link on its own: the diff of a concatenation is the concatenation of the diffs |
| LinkDiff.DiffEmptyWhenAllSeen | src/main.rs:38-41 | when `seen` already holds every fetched link, the diff is empty |
| LinkDiff.DiffNoDup | src/main.rs:54-62 | a duplicate-free fetched list gives a duplicate-free diff |
| LinkDiff.ComputeDiff | src/main.rs:54-62 | the source's push loop returns exactly the unseen links, in fetch order, and equals the reference `Diff` |
| Extraction.Contains | src/main.rs:118 | `link.contains(ex)`: a contained pattern is no longer than the link, and the empty pattern is contained in every string; `ContainsInfix` shows that a pattern placed anywhere in a string is found |
| Extraction.Excluded | src/main.rs:92-97 | the filter of line 118, an `any` over `default_exclusions()` (the constant `Exclusions`, which holds `javascript:void(0)` and `mailto:`): a link is excluded exactly when it contains `javascript:void(0)` or contains `mailto:` |
| Extraction.ExcludedAnywhere | src/main.rs:118 | an exclusion pattern excludes a link wherever in the link it occurs, with any prefix and any suffix |
| Extraction.Normalize | src/main.rs:110-117 | a valid `href` is kept unchanged; the `unwrap` panics (`None`) exactly when the `href` is not valid and cannot be joined onto the base; any changed result is the join of the base and an invalid `href` |
| Extraction.NormalizeAll | src/main.rs:107-117 | the `map` succeeds only when every href normalizes, and then maps position by position; one failing href fails it, wherever that href stands |
| Extraction.RemoveExcluded | src/main.rs:118 | keeps every occurrence of each link that contains no exclusion pattern, drops every occurrence of the others, and keeps the original order |
| Extraction.Extract | src/main.rs:107-124 | panics exactly when some href is neither a valid URL nor joinable onto the base; otherwise strictly ascending, no excluded link, and exactly the non-excluded normalized hrefs |
| Extraction.ExtractNormalizes | src/main.rs:110-118 | a valid href appears unchanged and any other href appears as the base joined with it, unless the resulting string is excluded |
| Extraction.ExtractOrderIndependent | src/main.rs:107-124 | the result depends only on which hrefs the page has, not on their order or how often they repeat |
| Extraction.ExtractIsSortedSetOfAdmissible | src/main.rs:107-124 | reference definition: the result is the unique strictly ascending sequence of the admissible normalized links |
| Extraction.ExampleComAbout | src/main.rs:92-124 | on `http://example.com`, the anchors `/about`, `http://example.com/about`, `javascript:void(0)` and `mailto:...` give exactly `["http://example.com/about"]` |
| Sorting.Sort | src/main.rs:121 | the result is sorted and is a permutation of the input |
| Sorting.SortedPermutationUnique | src/main.rs:121 | a sorted permutation is unique, so `Sort` gives the same result as the standard library's sort |
| Sorting.Dedup | src/main.rs:122 | the result has the same members as the input and no two equal neighbours; on sorted input (as after `sort`) this, together with `DedupIsSubsequence`, fixes the result (`DedupOfSortedIsStrictlySorted`, `StrictlySortedUnique`) |
| Sorting.DedupIsSubsequence | src/main.rs:122 | `dedup` only removes elements; the order of the rest is kept |
| Sorting.DedupOfSortedIsStrictlySorted | src/main.rs:121-122 | `dedup` after `sort` gives a strictly ascending list, so no value appears twice |
| Sorting.StrictlySortedUnique | src/main.rs:121-122 | a strictly ascending list is determined by its set of members |
| Poller.ErrorLine | src/main.rs:47 | the line `eprintln!("Error: {}", err)` writes: the prefix `Error: ` followed by exactly the cause, seven characters longer than the cause |
| Poller.FetchLinks | src/main.rs:99-124 | a fetch error becomes `Err` with its cause; a parsed page panics exactly when `Extract` fails; the links returned for a parsed page are exactly its normalized hrefs that are not excluded, strictly sorted and duplicate-free |
| Poller.Tick | src/main.rs:35-48 | the seen list grows only by the printed lines; nothing printed was seen before; a success prints exactly the unseen fetched links, in order, and stores every fetched link; an error or panic changes nothing, and an error prints one `Error:` line; no duplicates are introduced |
| Poller.TickPrintsDiff | src/main.rs:38-45 | a successful tick prints `diff(seen, links)` and appends it to `seen` |
| Poller.TickIdempotent | src/main.rs:38-41 | a second tick on the same links finds nothing new and leaves the state as the first tick left it |
| Poller.Run | src/main.rs:31-48 | the critical sections of the ticks in lock order: no more error lines than ticks, every error line is the `Error:` line of some failed tick, and every failed tick's line appears; `RunErrors` fixes the error stream exactly, and `RunAppend`, `RunAppendOnly`, `RunContents` and `RunNeverRepeats` state what the fold does to the seen list and the printed lines |
| Poller.RunAppend | src/main.rs:25-49 | the fold splits at any point: running `a` and then `b` from the seen list `a` left gives the same state, with the printed and error lines of `a` followed by those of `b`; so every tick contributes its own lines, in lock order |
| Poller.RunErrors | src/main.rs:36-48 | the error lines of a run are exactly one `Error:` line per failed tick, in lock order, and nothing for a success or a panic |
| Poller.RunAppendOnly | src/main.rs:42-45 | over any run of ticks, the seen list is the initial list followed by everything printed; nothing is removed or reordered |
| Poller.RunContents | src/main.rs:36-48 | after a run, the seen list holds exactly the initial links plus every link that some successful tick fetched |
| Poller.RunNeverRepeats | src/main.rs:38-45 | from a duplicate-free start with duplicate-free fetches, no link is printed twice and no printed link was in the initial list |
| Poller.Poll | src/main.rs:24-49 | the process lifetime from an empty `shared_links`, one page per tick: no more error lines than pages, and each error line is the `Error:` line of a page whose fetch failed and each such page's line appears; `PollErrors` fixes the error stream exactly |
| Poller.PollAppend | src/main.rs:25-49 | polling the pages `a` and then `b` is polling `a` and then running the ticks of `b` from the seen list `a` left, with the printed and error lines of `a` first |
| Poller.PollErrors | src/main.rs:25-49 | over the process lifetime, the error lines are exactly one `Error:` line per page whose fetch failed, in the order of the ticks |
| Poller.PollPrintsEachLinkOnce | src/main.rs:25-49 | over the process lifetime, from an empty list, every link is printed at most once, none is excluded, and the seen list is exactly the printed lines in print order |
| Poller.PollContents | src/main.rs:31-49 | over the process lifetime the seen list holds exactly the non-excluded normalized hrefs of the pages whose tick did not fail or panic |
| Poller.TwoTicksExample | src/main.rs:36-45 | a page with A and B prints A and B; a later page with A and C prints only C |

## Left out

- Argument parsing and the usage message (`src/main.rs:14-21`): process start-up. The target URL is a parameter.
- The tokio `interval`, `spawn` and `Mutex` (`src/main.rs:23-33`): the mutex serializes the critical sections, so ticks are a sequential fold in lock order. Scheduling and the growth of waiting tasks are not modelled.
- The HTTP client and request (`src/main.rs:100-102`): network I/O. Each tick takes a `Page`, which is either the parsed hrefs or the error text.
- HTML parsing with `scraper` (`src/main.rs:104-109`): a foreign library. Its output, the list of `href` values in document order, is an input.
- The internals of `validate_url` and `create_absolute_url` (`src/main.rs:64-90`): the `url` crate's parser. They are the abstract `UrlOps.isValid` and `UrlOps.join`. The model proves no facts about schemes or hosts of resolved URLs.
- The text of a panic: the runtime prints it to standard error, but `Step.errors` records only the `eprintln!` lines.
- The `Display` form of the error: `FetchError` carries the cause already rendered as text.

=== FILE: extraction.dfy ===
/** The part of `fetch_links` that runs after the HTML has been parsed
    (src/main.rs:107-124): normalize every `href`, drop the excluded ones,
    sort, remove duplicates. */
module Extraction {
  import opened Wrappers
  import opened Sequences
  import opened StringOrder
  import opened Sorting

  /** The two operations the pipeline borrows from the `url` crate, kept
      abstract. `isValid` is `validate_url` (the string parses as a URL with
      a scheme and a host); `join` is `create_absolute_url`, which parses the
      base, joins the candidate onto it and serializes the result, or fails. */
  datatype UrlOps = UrlOps(isValid: string -> bool, join: (string, string) -> Option<string>)

  /** `default_exclusions` (src/main.rs:92-97). */
  const Exclusions: seq<string> := ["javascript:void(0)", "mailto:"]

  /** `s.contains(pattern)`: `pattern` occurs in `s` as a contiguous
      substring. */
  predicate Contains(s: string, pattern: string)
    ensures Contains(s, pattern) ==> |pattern| <= |s|
    ensures |pattern| == 0 ==> Contains(s, pattern)
  {
    assert |pattern| == 0 ==> OccursAt(s, pattern, 0);
    exists i :: 0 <= i <= |s| && OccursAt(s, pattern, i)
  }

  /** `pattern` occurs in `s` starting at index `i`. */
  predicate OccursAt(s: string, pattern: string, i: nat)
  {
    i + |pattern| <= |s| && s[i..i + |pattern|] == pattern
  }

  /** The filter of src/main.rs:118: some exclusion occurs in the link. */
  predicate Excluded(link: string)
    ensures Excluded(link) <==> Contains(link, "javascript:void(0)") || Contains(link, "mailto:")
  {
    assert Exclusions[0] == "javascript:void(0)" && Exclusions[1] == "mailto:";
    exists k :: 0 <= k < |Exclusions| && Contains(link, Exclusions[k])
  }

  /** The closure of src/main.rs:110-117 for one `href`: a valid URL is kept
      as it is, anything else is joined onto the base. `None` is the case in
      which the source's `unwrap` panics. */
  function Normalize(ops: UrlOps, base: string, href: string): (r: Option<string>)
    ensures ops.isValid(href) ==> r == Some(href)
    ensures r.None? <==> !ops.isValid(href) && ops.join(base, href).None?
    ensures r.Some? && r.value != href ==> !ops.isValid(href) && ops.join(base, href) == r
  {
    if ops.isValid(href) then Some(href) else ops.join(base, href)
  }

  /** `x` is what some `href` of the page normalizes to. */
  predicate Produces(ops: UrlOps, base: string, hrefs: seq<string>, x: string)
  {
    exists i :: 0 <= i < |hrefs| && Normalize(ops, base, hrefs[i]) == Some(x)
  }

  /** The `map` step over all hrefs. It succeeds only when every `href`
      normalizes: one failure panics the task, whatever its position. */
  function NormalizeAll(ops: UrlOps, base: string, hrefs: seq<string>): (r: Option<seq<string>>)
    ensures r.Some? <==> forall i :: 0 <= i < |hrefs| ==> Normalize(ops, base, hrefs[i]).Some?
    ensures r.Some? ==> |r.value| == |hrefs|
    ensures r.Some? ==> forall i :: 0 <= i < |hrefs| ==> Normalize(ops, base, hrefs[i]) == Some(r.value[i])
    decreases |hrefs|
  {
    if |hrefs| == 0 then Some([])
    else
      var init := hrefs[..|hrefs| - 1];
      match NormalizeAll(ops, base, init)
      case None =>
        assert exists i :: 0 <= i < |init| && !Normalize(ops, base, init[i]).Some?;
        None
      case Some(front) =>
        match Normalize(ops, base, hrefs[|hrefs| - 1])
        case None => None
        case Some(link) =>
          assert forall i :: 0 <= i < |init| ==> hrefs[i] == init[i];
          Some(front + [link])
  }

  /** The `filter` step: keeps every occurrence of each link no exclusion
      occurs in, drops every occurrence of the others, and keeps the order. */
  function RemoveExcluded(links: seq<string>): (r: seq<string>)
    ensures forall x :: x in r <==> x in links && !Excluded(x)
    ensures forall x :: multiset(r)[x] == if Excluded(x) then 0 else multiset(links)[x]
    ensures IsSubsequence(r, links)
    decreases |links|
  {
    if |links| == 0 then []
    else
      var init := links[..|links| - 1];
      var link := links[|links| - 1];
      var rest := RemoveExcluded(init);
      assert links == init + [link];
      assert multiset(links) == multiset(init) + multiset([link]);
      if Excluded(link) then
        SubsequenceExtend(rest, init, link);
        rest
      else
        SubsequenceSnoc(rest, init, link);
        rest + [link]
  }

  /** The whole post-parse pipeline of `fetch_links`. `None` when some `href`
      makes `create_absolute_url(...).unwrap()` panic; otherwise the links
      strictly ascending, with no excluded link, and exactly the admissible
      normalized links. */
  function Extract(ops: UrlOps, base: string, hrefs: seq<string>): (r: Option<seq<string>>)
    ensures r.None? <==> exists i :: 0 <= i < |hrefs| && !ops.isValid(hrefs[i]) && ops.join(base, hrefs[i]).None?
    ensures r.Some? ==> StrictlySorted(r.value)
    ensures r.Some? ==> forall x :: x in r.value <==> Produces(ops, base, hrefs, x) && !Excluded(x)
  {
    match NormalizeAll(ops, base, hrefs)
    case None =>
      assert exists i :: 0 <= i < |hrefs| && !Normalize(ops, base, hrefs[i]).Some?;
      None
    case Some(mapped) =>
      var kept := RemoveExcluded(mapped);
      var sorted := Sort(kept);
      DedupOfSortedIsStrictlySorted(sorted);
      var out := Dedup(sorted);
      assert forall x :: x in sorted <==> x in kept by {
        forall x
          ensures x in sorted <==> x in kept
        {
          assert x in sorted <==> x in multiset(sorted);
          assert x in kept <==> x in multiset(kept);
        }
      }
      assert forall x :: x in mapped <==> Produces(ops, base, hrefs, x) by {
        forall x
          ensures x in mapped <==> Produces(ops, base, hrefs, x)
        {
          if x in mapped {
            var i :| 0 <= i < |mapped| && mapped[i] == x;
            assert Normalize(ops, base, hrefs[i]) == Some(x);
          }
        }
      }
      Some(out)
  }

  /** Every character of a contained pattern is a character of the string;
      used to show that a link is not excluded. */
  lemma ContainsCharacter(s: string, pattern: string, c: char)
    requires Contains(s, pattern) && c in pattern
    ensures c in s
  {
    var i :| 0 <= i <= |s| && OccursAt(s, pattern, i);
    var k :| 0 <= k < |pattern| && pattern[k] == c;
    assert s[i + k] == s[i..i + |pattern|][k];
  }

  /** The result depends only on which hrefs the page holds, not on their
      order or repetition: the same exclusion and normalization apply to each
      href wherever it stands. */
  lemma ExtractOrderIndependent(ops: UrlOps, base: string, h1: seq<string>, h2: seq<string>)
    requires forall x :: x in h1 <==> x in h2
    ensures Extract(ops, base, h1) == Extract(ops, base, h2)
  {
    var r1 := Extract(ops, base, h1);
    var r2 := Extract(ops, base, h2);
    assert r1.None? <==> r2.None? by {
      if r1.None? {
        var i :| 0 <= i < |h1| && !ops.isValid(h1[i]) && ops.join(base, h1[i]).None?;
        assert h1[i] in h2;
      }
      if r2.None? {
        var i :| 0 <= i < |h2| && !ops.isValid(h2[i]) && ops.join(base, h2[i]).None?;
        assert h2[i] in h1;
      }
    }
    if r1.Some? {
      forall x
        ensures Produces(ops, base, h1, x) <==> Produces(ops, base, h2, x)
      {
        if Produces(ops, base, h1, x) {
          var i :| 0 <= i < |h1| && Normalize(ops, base, h1[i]) == Some(x);
          assert h1[i] in h2;
        }
        if Produces(ops, base, h2, x) {
          var i :| 0 <= i < |h2| && Normalize(ops, base, h2[i]) == Some(x);
          assert h2[i] in h1;
        }
      }
      StrictlySortedUnique(r1.value, r2.value);
    }
  }

  /** Reference definition: when no href makes the pipeline panic, its result
      is THE strictly ascending sequence of the admissible normalized links,
      so any sequence with that description is the result. */
  lemma ExtractIsSortedSetOfAdmissible(ops: UrlOps, base: string, hrefs: seq<string>, t: seq<string>)
    requires forall i :: 0 <= i < |hrefs| ==> Normalize(ops, base, hrefs[i]).Some?
    requires StrictlySorted(t)
    requires forall x :: x in t <==> Produces(ops, base, hrefs, x) && !Excluded(x)
    ensures Extract(ops, base, hrefs) == Some(t)
  {
    var r := Extract(ops, base, hrefs);
    StrictlySortedUnique(r.value, t);
  }

  /** A pattern placed anywhere inside a string is contained in it. */
  lemma ContainsInfix(u: string, pattern: string, v: string)
    ensures Contains(u + pattern + v, pattern)
  {
    var s := u + pattern + v;
    assert s[|u|..|u| + |pattern|] == pattern;
    assert OccursAt(s, pattern, |u|);
  }

  /** A link with either exclusion pattern anywhere in it is excluded,
      whatever surrounds the pattern. */
  lemma ExcludedAnywhere(u: string, v: string)
    ensures Excluded(u + "javascript:void(0)" + v)
    ensures Excluded(u + "mailto:" + v)
  {
    ContainsInfix(u, "javascript:void(0)", v);
    ContainsInfix(u, "mailto:", v);
  }

  /** Each href of a page that does not panic reaches the output unless it
      is excluded: a valid URL exactly as written, any other href as the base
      joined with it. The exclusion applies to that final string. */
  lemma ExtractNormalizes(ops: UrlOps, base: string, hrefs: seq<string>, i: int)
    requires 0 <= i < |hrefs|
    requires Extract(ops, base, hrefs).Some?
    ensures ops.isValid(hrefs[i]) ==>
              (hrefs[i] in Extract(ops, base, hrefs).value <==> !Excluded(hrefs[i]))
    ensures !ops.isValid(hrefs[i]) ==>
              && ops.join(base, hrefs[i]).Some?
              && (ops.join(base, hrefs[i]).value in Extract(ops, base, hrefs).value
                  <==> !Excluded(ops.join(base, hrefs[i]).value))
  {
    var n := Normalize(ops, base, hrefs[i]);
    assert n.Some? ==> Produces(ops, base, hrefs, n.value);
  }

  /** The link of the worked example below is not excluded: it holds
      neither a `(` nor an `i`, and each exclusion holds one of them. */
  lemma AboutNotExcluded()
    ensures !Excluded("http://example.com/about")
  {
    var about := "http://example.com/about";
    assert '(' !in about && 'i' !in about;
    assert '(' in Exclusions[0] && 'i' in Exclusions[1];
    forall k | 0 <= k < |Exclusions|
      ensures !Contains(about, Exclusions[k])
    {
      if Contains(about, Exclusions[k]) {
        ContainsCharacter(about, Exclusions[k], if k == 0 then '(' else 'i');
      }
    }
  }

  /** The worked example of a page on `http://example.com` with the anchors
      `/about`, `http://example.com/about`, `javascript:void(0)` and
      `mailto:test@example.com`. The `url` crate's behaviour on these four
      strings is stated as the requirements; the relative and the absolute
      spelling of the same page collapse into one link and both excluded
      schemes are dropped. */
  lemma ExampleComAbout(ops: UrlOps)
    requires !ops.isValid("/about")
    requires ops.join("http://example.com", "/about") == Some("http://example.com/about")
    requires ops.isValid("http://example.com/about")
    requires !ops.isValid("javascript:void(0)")
    requires ops.join("http://example.com", "javascript:void(0)") == Some("javascript:void(0)")
    requires !ops.isValid("mailto:test@example.com")
    requires ops.join("http://example.com", "mailto:test@example.com") == Some("mailto:test@example.com")
    ensures Extract(ops, "http://example.com",
                    ["/about", "http://example.com/about", "javascript:void(0)", "mailto:test@example.com"])
            == Some(["http://example.com/about"])
  {
    var base := "http://example.com";
    var about := "http://example.com/about";
    var js := "javascript:void(0)";
    var mail := "mailto:test@example.com";
    var hrefs := ["/about", about, js, mail];
    assert Excluded(js) by {
      assert OccursAt(js, Exclusions[0], 0);
    }
    assert Excluded(mail) by {
      assert OccursAt(mail, Exclusions[1], 0);
    }
    AboutNotExcluded();
    assert Normalize(ops, base, hrefs[0]) == Some(about);
    assert Normalize(ops, base, hrefs[1]) == Some(about);
    assert Normalize(ops, base, hrefs[2]) == Some(js);
    assert Normalize(ops, base, hrefs[3]) == Some(mail);
    forall x
      ensures x in [about] <==> Produces(ops, base, hrefs, x) && !Excluded(x)
    {
      if Produces(ops, base, hrefs, x) {
        var i :| 0 <= i < |hrefs| && Normalize(ops, base, hrefs[i]) == Some(x);
        assert x == about || x == js || x == mail;
      }
    }
    ExtractIsSortedSetOfAdmissible(ops, base, hrefs, [about]);
  }
}

=== FILE: link_diff.dfy ===
/** `diff` (src/main.rs:54-62): the fetched links that are not yet in the
    seen list, in the order they were fetched. */
module LinkDiff {
  import opened Sequences

  /** Reference definition: `links` with every element of `seen` filtered out,
      built the way the source's loop builds it, one element at a time. */
  function Diff(seen: seq<string>, links: seq<string>): (r: seq<string>)
    ensures |r| <= |links|
    ensures forall i :: 0 <= i < |r| ==> r[i] in links && r[i] !in seen
    decreases |links|
  {
    if |links| == 0 then []
    else
      var link := links[|links| - 1];
      Diff(seen, links[..|links| - 1]) + (if link in seen then [] else [link])
  }

  /** A link is in the diff exactly when it was fetched and not seen before. */
  lemma {:induction false} DiffMembership(seen: seq<string>, links: seq<string>)
    ensures forall x :: x in Diff(seen, links) <==> x in links && x !in seen
    decreases |links|
  {
    if |links| > 0 {
      var init := links[..|links| - 1];
      DiffMembership(seen, init);
      assert links == init + [links[|links| - 1]];
    }
  }

  /** Each fetched link that was not seen keeps all its occurrences; each seen
      one disappears. */
  lemma {:induction false} DiffMultiplicity(seen: seq<string>, links: seq<string>, x: string)
    ensures multiset(Diff(seen, links))[x] == if x in seen then 0 else multiset(links)[x]
    decreases |links|
  {
    if |links| > 0 {
      var init := links[..|links| - 1];
      var link := links[|links| - 1];
      DiffMultiplicity(seen, init, x);
      assert links == init + [link];
      assert multiset(links) == multiset(init) + multiset{link};
      if link in seen {
        assert Diff(seen, links) == Diff(seen, init);
      } else {
        assert Diff(seen, links) == Diff(seen, init) + [link];
        assert multiset(Diff(seen, links)) == multiset(Diff(seen, init)) + multiset{link};
      }
    }
  }

  /** The diff keeps the fetched order: it is a subsequence of the fetched
      list, and therefore no longer. */
  lemma {:induction false} DiffIsSubsequence(seen: seq<string>, links: seq<string>)
    ensures IsSubsequence(Diff(seen, links), links)
    ensures |Diff(seen, links)| <= |links|
    decreases |links|
  {
    if |links| > 0 {
      var init := links[..|links| - 1];
      var link := links[|links| - 1];
      DiffIsSubsequence(seen, init);
      assert links == init + [link];
      if link in seen {
        assert Diff(seen, links) == Diff(seen, init);
        SubsequenceExtend(Diff(seen, init), init, link);
      } else {
        assert Diff(seen, links) == Diff(seen, init) + [link];
        SubsequenceSnoc(Diff(seen, init), init, link);
      }
    }
    SubsequenceBounds(Diff(seen, links), links);
  }

  /** Filtering distributes over concatenation: the links of `a` come out
      first, in order, followed by those of `b`. */
  lemma {:induction false} DiffAppend(seen: seq<string>, a: seq<string>, b: seq<string>)
    ensures Diff(seen, a + b) == Diff(seen, a) + Diff(seen, b)
    decreases |b|
  {
    if |b| > 0 {
      var init := b[..|b| - 1];
      assert (a + b)[..|a + b| - 1] == a + init;
      DiffAppend(seen, a, init);
    } else {
      assert a + b == a;
    }
  }

  /** A single link is kept exactly when it was not seen. */
  lemma DiffSingleton(seen: seq<string>, link: string)
    ensures Diff(seen, [link]) == if link in seen then [] else [link]
  {
    assert [link][..0] == [];
  }

  /** Nothing survives a diff against a list that already holds every fetched
      link: the reason a repeated tick reports nothing. */
  lemma DiffEmptyWhenAllSeen(seen: seq<string>, links: seq<string>)
    requires forall x :: x in links ==> x in seen
    ensures Diff(seen, links) == []
  {
    DiffMembership(seen, links);
    if |Diff(seen, links)| > 0 {
      assert Diff(seen, links)[0] in Diff(seen, links);
    }
  }

  /** A duplicate-free fetched list gives a duplicate-free diff. */
  lemma {:induction false} DiffNoDup(seen: seq<string>, links: seq<string>)
    requires NoDup(links)
    ensures NoDup(Diff(seen, links))
    decreases |links|
  {
    if |links| > 0 {
      var init := links[..|links| - 1];
      var link := links[|links| - 1];
      assert NoDup(init);
      DiffNoDup(seen, init);
      assert link !in init by {
        assert links == init + [link];
      }
      NoDupAppend(Diff(seen, init), if link in seen then [] else [link]);
    }
  }

  /** The loop of the source: walks the fetched list and pushes each link the
      seen list does not contain. */
  method ComputeDiff(seen: seq<string>, links: seq<string>) returns (d: seq<string>)
    ensures forall x :: x in d <==> x in links && x !in seen
    ensures IsSubsequence(d, links)
    ensures d == Diff(seen, links)
  {
    d := [];
    var i := 0;
    while i < |links|
      invariant 0 <= i <= |links|
      invariant d == Diff(seen, links[..i])
    {
      var link := links[i];
      assert links[..i + 1][..i] == links[..i];
      if link !in seen {
        d := d + [link];
      }
      i := i + 1;
    }
    assert links[..i] == links;
    DiffMembership(seen, links);
    DiffIsSubsequence(seen, links);
  }
}

=== FILE: poller.dfy ===
/** The body of the task spawned on every tick (src/main.rs:31-49) and the
    sequence of such ticks. The tokio mutex around the seen list is held from
    the fetch to the last push, so the critical sections of the ticks run one
    after another; a sequence of ticks is the fold of `Tick` over the fetch
    results in lock order. */
module Poller {
  import opened Wrappers
  import opened Sequences
  import opened StringOrder
  import opened Sorting
  import opened LinkDiff
  import opened Extraction

  /** What the HTTP request and HTML parse of one tick yield: the `href`
      values of the page's anchors in document order, or the error that
      `send` or `text` returned, rendered as text. */
  datatype Page = Body(hrefs: seq<string>) | FetchError(cause: string)

  /** How `fetch_links` ends: with the sorted links, with an error, or by
      panicking in the `unwrap` of src/main.rs:115. */
  datatype Fetched = Links(links: seq<string>) | Failed(cause: string) | Panicked

  /** The state after one or more ticks, with what they wrote to standard
      output (one link per line) and standard error. */
  datatype Step = Step(seen: seq<string>, printed: seq<string>, errors: seq<string>)

  /** The line `eprintln!("Error: {}", err)` writes. */
  function ErrorLine(cause: string): (line: string)
    ensures |line| == |cause| + 7 && line[..7] == "Error: "
    ensures line[7..] == cause
  {
    "Error: " + cause
  }

  /** `fetch_links(url)` once the page has been fetched and parsed. */
  function FetchLinks(ops: UrlOps, target: string, page: Page): (f: Fetched)
    ensures page.FetchError? ==> f == Failed(page.cause)
    ensures page.Body? ==> !f.Failed?
    ensures page.Body? ==> (f.Panicked? <==> Extract(ops, target, page.hrefs).None?)
    ensures f.Links? ==> StrictlySorted(f.links) && NoDup(f.links)
    ensures page.Body? && f.Links? ==>
              forall x :: x in f.links <==> Produces(ops, target, page.hrefs, x) && !Excluded(x)
  {
    match page
    case FetchError(cause) => Failed(cause)
    case Body(hrefs) =>
      match Extract(ops, target, hrefs)
      case None => Panicked
      case Some(links) =>
        StrictlySortedNoDup(links);
        Links(links)
  }

  /** One critical section: diff the fetched links against the seen list,
      return early when nothing is new, otherwise push and print each new
      link in turn. An error is printed and changes nothing; a panic drops
      the guard before anything was pushed. */
  function Tick(seen: seq<string>, fetched: Fetched): (st: Step)
    ensures st.seen == seen + st.printed
    ensures forall x :: x in st.printed ==> x !in seen
    ensures fetched.Links? ==> forall x :: x in st.printed <==> x in fetched.links && x !in seen
    ensures fetched.Links? ==> IsSubsequence(st.printed, fetched.links)
    ensures fetched.Links? ==> forall x :: x in fetched.links ==> x in st.seen
    ensures !fetched.Links? ==> st.seen == seen && st.printed == []
    ensures fetched.Failed? ==> st.errors == [ErrorLine(fetched.cause)]
    ensures !fetched.Failed? ==> st.errors == []
    ensures NoDup(seen) && (fetched.Links? ==> NoDup(fetched.links)) ==> NoDup(st.seen)
  {
    if fetched.Links? then
      DiffMembership(seen, fetched.links);
      DiffIsSubsequence(seen, fetched.links);
      assert NoDup(seen) && NoDup(fetched.links) ==> NoDup(seen + Diff(seen, fetched.links)) by {
        if NoDup(seen) && NoDup(fetched.links) {
          DiffNoDup(seen, fetched.links);
          NoDupAppend(seen, Diff(seen, fetched.links));
        }
      }
      Section(seen, fetched)
    else
      Section(seen, fetched)
  }

  /** The state change of one critical section, which `Tick` gives its
      contract; runs fold it so that their proofs unfold only what they
      use. */
  function Section(seen: seq<string>, fetched: Fetched): Step
  {
    match fetched
    case Links(links) =>
      var newLinks := Diff(seen, links);
      if newLinks == [] then Step(seen, [], [])
      else Step(seen + newLinks, newLinks, [])
    case Failed(cause) => Step(seen, [], [ErrorLine(cause)])
    case Panicked => Step(seen, [], [])
  }

  /** A successful tick prints exactly the diff, and appends it. */
  lemma TickPrintsDiff(seen: seq<string>, links: seq<string>)
    ensures Tick(seen, Links(links)).printed == Diff(seen, links)
    ensures Tick(seen, Links(links)).seen == seen + Diff(seen, links)
  {
  }

  /** A second tick on the same links finds nothing new and leaves the seen
      list as the first one left it. */
  lemma TickIdempotent(seen: seq<string>, links: seq<string>)
    ensures var first := Tick(seen, Links(links));
            Tick(first.seen, Links(links)) == Step(first.seen, [], [])
  {
    var first := Tick(seen, Links(links));
    DiffEmptyWhenAllSeen(first.seen, links);
  }

  /** The ticks in lock order, starting from `seen`: the final seen list and
      everything printed, in order. */
  function Run(seen: seq<string>, ticks: seq<Fetched>): (st: Step)
    ensures |st.errors| <= |ticks|
    ensures forall e :: e in st.errors ==>
              exists i :: 0 <= i < |ticks| && ticks[i].Failed? && e == ErrorLine(ticks[i].cause)
    ensures forall i :: 0 <= i < |ticks| && ticks[i].Failed? ==> ErrorLine(ticks[i].cause) in st.errors
    decreases |ticks|
  {
    if |ticks| == 0 then Step(seen, [], [])
    else
      var init := ticks[..|ticks| - 1];
      var t := ticks[|ticks| - 1];
      var before := Run(seen, init);
      var last := Section(before.seen, t);
      var st := Step(last.seen, before.printed + last.printed, before.errors + last.errors);
      assert last == Tick(before.seen, t);
      ErrorLinesSnoc(init, t, before.errors, last.errors);
      assert ticks == init + [t];
      st
  }

  /** Appending one tick's error lines keeps the correspondence between
      error lines and failed ticks. */
  lemma ErrorLinesSnoc(init: seq<Fetched>, t: Fetched, before: seq<string>, last: seq<string>)
    requires forall e :: e in before ==>
               exists i :: 0 <= i < |init| && init[i].Failed? && e == ErrorLine(init[i].cause)
    requires forall i :: 0 <= i < |init| && init[i].Failed? ==> ErrorLine(init[i].cause) in before
    requires last == if t.Failed? then [ErrorLine(t.cause)] else []
    ensures forall e :: e in before + last ==>
              exists i :: 0 <= i < |init + [t]| && (init + [t])[i].Failed? && e == ErrorLine((init + [t])[i].cause)
    ensures forall i :: 0 <= i < |init + [t]| && (init + [t])[i].Failed? ==> ErrorLine((init + [t])[i].cause) in before + last
  {
    var ticks := init + [t];
    forall e | e in before + last
      ensures exists i :: 0 <= i < |ticks| && ticks[i].Failed? && e == ErrorLine(ticks[i].cause)
    {
      if e in before {
        var i :| 0 <= i < |init| && init[i].Failed? && e == ErrorLine(init[i].cause);
        assert ticks[i] == init[i];
      } else {
        assert ticks[|init|] == t;
      }
    }
    forall i | 0 <= i < |ticks| && ticks[i].Failed?
      ensures ErrorLine(ticks[i].cause) in before + last
    {
      if i < |init| {
        assert ticks[i] == init[i];
      }
    }
  }

  /** The fold splits at any point: running `a` and then `b` from where `a`
      left the seen list gives the same state, and the printed and error
      lines of `a` followed by those of `b`. */
  lemma {:induction false} RunAppend(seen: seq<string>, a: seq<Fetched>, b: seq<Fetched>)
    ensures Run(seen, a + b) ==
            var first := Run(seen, a);
            var second := Run(first.seen, b);
            Step(second.seen, first.printed + second.printed, first.errors + second.errors)
    decreases |b|
  {
    var first := Run(seen, a);
    if |b| == 0 {
      assert a + b == a;
      assert first.printed + [] == first.printed && first.errors + [] == first.errors;
    } else {
      var init := b[..|b| - 1];
      var t := b[|b| - 1];
      var middle := Run(first.seen, init);
      var before := Run(seen, a + init);
      var last := Section(middle.seen, t);
      assert before == Step(middle.seen, first.printed + middle.printed, first.errors + middle.errors) by {
        RunAppend(seen, a, init);
      }
      assert Run(seen, a + b) == Step(last.seen, before.printed + last.printed, before.errors + last.errors) by {
        assert (a + b)[..|a + b| - 1] == a + init;
        assert (a + b)[|a + b| - 1] == t;
        RunLast(seen, a + b);
      }
      assert Run(first.seen, b) == Step(last.seen, middle.printed + last.printed, middle.errors + last.errors) by {
        RunLast(first.seen, b);
      }
      ConcatAssociative(first.printed, middle.printed, last.printed);
      ConcatAssociative(first.errors, middle.errors, last.errors);
    }
  }

  /** The last tick of a non-empty run acts on the state the others left. */
  lemma RunLast(seen: seq<string>, ticks: seq<Fetched>)
    requires |ticks| > 0
    ensures Run(seen, ticks) ==
            var before := Run(seen, ticks[..|ticks| - 1]);
            var last := Section(before.seen, ticks[|ticks| - 1]);
            Step(last.seen, before.printed + last.printed, before.errors + last.errors)
  {
  }

  /** The error lines of a run, read off the ticks from the first on: one
      `Error:` line for each failed tick, in order. */
  function FailureLines(ticks: seq<Fetched>): seq<string>
    decreases |ticks|
  {
    if |ticks| == 0 then []
    else (if ticks[0].Failed? then [ErrorLine(ticks[0].cause)] else []) + FailureLines(ticks[1..])
  }

  /** A run writes exactly one `Error:` line per failed tick, in lock order,
      and nothing else to standard error. */
  lemma {:induction false} RunErrors(seen: seq<string>, ticks: seq<Fetched>)
    ensures Run(seen, ticks).errors == FailureLines(ticks)
    decreases |ticks|
  {
    if |ticks| > 0 {
      var init := ticks[..|ticks| - 1];
      var t := ticks[|ticks| - 1];
      var lastLine := if t.Failed? then [ErrorLine(t.cause)] else [];
      assert Run(seen, ticks).errors == Run(seen, init).errors + lastLine by {
        var before := Run(seen, init);
        RunLast(seen, ticks);
        assert Tick(before.seen, t) == Section(before.seen, t);
      }
      assert FailureLines(ticks) == FailureLines(init) + lastLine by {
        assert ticks == init + [t];
        FailureLinesSnoc(init, t);
      }
      RunErrors(seen, init);
    }
  }

  /** Reading the failures from the front agrees with adding the last tick's
      line at the end. */
  lemma {:induction false} FailureLinesSnoc(init: seq<Fetched>, t: Fetched)
    ensures FailureLines(init + [t]) == FailureLines(init) + (if t.Failed? then [ErrorLine(t.cause)] else [])
    decreases |init|
  {
    if |init| > 0 {
      assert (init + [t])[1..] == init[1..] + [t];
      FailureLinesSnoc(init[1..], t);
    } else {
      assert init + [t] == [t];
    }
  }

  /** The seen list only grows by what is printed: it is never shrunk or
      reordered, and the initial list stays its prefix. */
  lemma {:induction false} RunAppendOnly(seen: seq<string>, ticks: seq<Fetched>)
    ensures Run(seen, ticks).seen == seen + Run(seen, ticks).printed
    ensures seen <= Run(seen, ticks).seen
    decreases |ticks|
  {
    if |ticks| > 0 {
      RunAppendOnly(seen, ticks[..|ticks| - 1]);
    }
  }

  /** Some successful tick among `ticks` fetched `x`. */
  predicate Fetches(ticks: seq<Fetched>, x: string)
  {
    exists i :: 0 <= i < |ticks| && ticks[i].Links? && x in ticks[i].links
  }

  lemma FetchesSnoc(ticks: seq<Fetched>, x: string)
    requires |ticks| > 0
    ensures Fetches(ticks, x) <==>
            || Fetches(ticks[..|ticks| - 1], x)
            || (ticks[|ticks| - 1].Links? && x in ticks[|ticks| - 1].links)
  {
    var init := ticks[..|ticks| - 1];
    if Fetches(init, x) {
      var i :| 0 <= i < |init| && init[i].Links? && x in init[i].links;
      assert ticks[i] == init[i];
    }
    if Fetches(ticks, x) {
      var i :| 0 <= i < |ticks| && ticks[i].Links? && x in ticks[i].links;
      if i < |init| {
        assert ticks[i] == init[i];
      }
    }
  }

  /** After the ticks the seen list holds exactly the initial links and every
      link any successful tick fetched. */
  lemma {:induction false} RunContents(seen: seq<string>, ticks: seq<Fetched>, x: string)
    ensures x in Run(seen, ticks).seen <==> x in seen || Fetches(ticks, x)
    decreases |ticks|
  {
    if |ticks| > 0 {
      var before := Run(seen, ticks[..|ticks| - 1]);
      var t := ticks[|ticks| - 1];
      assert Tick(before.seen, t) == Section(before.seen, t);
      RunContents(seen, ticks[..|ticks| - 1], x);
      FetchesSnoc(ticks, x);
    }
  }

  /** When the initial list and every fetched list are free of duplicates,
      so is the seen list after the ticks; hence nothing is printed twice and
      nothing printed was in the initial list. */
  lemma {:induction false} RunNeverRepeats(seen: seq<string>, ticks: seq<Fetched>)
    requires NoDup(seen)
    requires forall i :: 0 <= i < |ticks| && ticks[i].Links? ==> NoDup(ticks[i].links)
    ensures NoDup(Run(seen, ticks).seen)
    ensures NoDup(Run(seen, ticks).printed)
    ensures forall x :: x in Run(seen, ticks).printed ==> x !in seen
    decreases |ticks|
  {
    if |ticks| > 0 {
      var init := ticks[..|ticks| - 1];
      var t := ticks[|ticks| - 1];
      assert forall i :: 0 <= i < |init| ==> init[i] == ticks[i];
      RunNeverRepeats(seen, init);
      var before := Run(seen, init);
      assert Tick(before.seen, t) == Section(before.seen, t);
    }
    var st := Run(seen, ticks);
    RunAppendOnly(seen, ticks);
    forall i, j | 0 <= i < j < |st.printed|
      ensures st.printed[i] != st.printed[j]
    {
      assert st.seen[|seen| + i] == st.printed[i];
      assert st.seen[|seen| + j] == st.printed[j];
    }
  }

  /** The process: the target polled once per page, from an empty seen list. */
  function Poll(ops: UrlOps, target: string, pages: seq<Page>): (st: Step)
    ensures |st.errors| <= |pages|
    ensures forall e :: e in st.errors ==>
              exists i :: 0 <= i < |pages| && pages[i].FetchError? && e == ErrorLine(pages[i].cause)
    ensures forall i :: 0 <= i < |pages| && pages[i].FetchError? ==> ErrorLine(pages[i].cause) in st.errors
  {
    Run([], FetchAll(ops, target, pages))
  }

  /** What `fetch_links` returns on each tick, one result per page. */
  function FetchAll(ops: UrlOps, target: string, pages: seq<Page>): (ticks: seq<Fetched>)
    ensures |ticks| == |pages|
    ensures forall i :: 0 <= i < |pages| ==> ticks[i] == FetchLinks(ops, target, pages[i])
  {
    seq(|pages|, i requires 0 <= i < |pages| => FetchLinks(ops, target, pages[i]))
  }

  /** Polling the pages `a` and then `b` is polling `a`, then running the
      ticks of `b` from the seen list `a` left. */
  lemma PollAppend(ops: UrlOps, target: string, a: seq<Page>, b: seq<Page>)
    ensures Poll(ops, target, a + b) ==
            var first := Poll(ops, target, a);
            var second := Run(first.seen, FetchAll(ops, target, b));
            Step(second.seen, first.printed + second.printed, first.errors + second.errors)
  {
    var ticksA := FetchAll(ops, target, a);
    var ticksB := FetchAll(ops, target, b);
    assert FetchAll(ops, target, a + b) == ticksA + ticksB;
    RunAppend([], ticksA, ticksB);
  }

  /** The error lines of the process, read off the pages: one `Error:` line
      for each page whose fetch failed, in order. */
  function FetchErrorLines(pages: seq<Page>): seq<string>
    decreases |pages|
  {
    if |pages| == 0 then []
    else (if pages[0].FetchError? then [ErrorLine(pages[0].cause)] else []) + FetchErrorLines(pages[1..])
  }

  /** The failed fetches are exactly the pages that are fetch errors. */
  lemma {:induction false} FailuresOfFetchAll(ops: UrlOps, target: string, pages: seq<Page>)
    ensures FailureLines(FetchAll(ops, target, pages)) == FetchErrorLines(pages)
    decreases |pages|
  {
    if |pages| > 0 {
      assert FetchAll(ops, target, pages)[1..] == FetchAll(ops, target, pages[1..]);
      FailuresOfFetchAll(ops, target, pages[1..]);
    }
  }

  /** Over the life of the process exactly one `Error:` line is written per
      failed fetch, in the order of the ticks. */
  lemma PollErrors(ops: UrlOps, target: string, pages: seq<Page>)
    ensures Poll(ops, target, pages).errors == FetchErrorLines(pages)
  {
    RunErrors([], FetchAll(ops, target, pages));
    FailuresOfFetchAll(ops, target, pages);
  }

  /** Over the whole life of the process no link is printed twice, none of
      them holds an excluded pattern, and the seen list is exactly what was
      printed, in the order it was printed. */
  lemma PollPrintsEachLinkOnce(ops: UrlOps, target: string, pages: seq<Page>)
    ensures NoDup(Poll(ops, target, pages).printed)
    ensures Poll(ops, target, pages).seen == Poll(ops, target, pages).printed
    ensures forall x :: x in Poll(ops, target, pages).printed ==> !Excluded(x)
  {
    var ticks := FetchAll(ops, target, pages);
    RunNeverRepeats([], ticks);
    RunAppendOnly([], ticks);
    forall x | x in Poll(ops, target, pages).printed
      ensures !Excluded(x)
    {
      RunContents([], ticks, x);
      var i :| 0 <= i < |ticks| && ticks[i].Links? && x in ticks[i].links;
      assert ticks[i] == FetchLinks(ops, target, pages[i]);
    }
  }

  /** Over the life of the process the seen list holds exactly the links that
      some fetched page, which did not make its tick panic, yields: a
      normalized href of that page that is not excluded. */
  lemma PollContents(ops: UrlOps, target: string, pages: seq<Page>, x: string)
    ensures x in Poll(ops, target, pages).seen <==>
            exists i :: && 0 <= i < |pages| && pages[i].Body?
                        && Extract(ops, target, pages[i].hrefs).Some?
                        && Produces(ops, target, pages[i].hrefs, x) && !Excluded(x)
  {
    var ticks := FetchAll(ops, target, pages);
    RunContents([], ticks, x);
    if x in Poll(ops, target, pages).seen {
      var i :| 0 <= i < |ticks| && ticks[i].Links? && x in ticks[i].links;
      assert ticks[i] == FetchLinks(ops, target, pages[i]);
    }
    if exists i :: && 0 <= i < |pages| && pages[i].Body?
                   && Extract(ops, target, pages[i].hrefs).Some?
                   && Produces(ops, target, pages[i].hrefs, x) && !Excluded(x) {
      var i :| && 0 <= i < |pages| && pages[i].Body?
               && Extract(ops, target, pages[i].hrefs).Some?
               && Produces(ops, target, pages[i].hrefs, x) && !Excluded(x);
      assert ticks[i] == FetchLinks(ops, target, pages[i]);
      assert Fetches(ticks, x);
    }
  }

  /** Two ticks: a page with links A and B, then one with A and C. The first
      prints A and B, the second only C. */
  lemma TwoTicksExample(a: string, b: string, c: string)
    requires a != b && a != c && b != c
    ensures Tick([], Links([a, b])) == Step([a, b], [a, b], [])
    ensures Tick([a, b], Links([a, c])) == Step([a, b, c], [c], [])
  {
    FreshPairTick(a, b);
    OneSeenPairTick(a, b, c);
  }

  /** From an empty list, two distinct links are both printed. */
  lemma FreshPairTick(a: string, b: string)
    requires a != b
    ensures Tick([], Links([a, b])) == Step([a, b], [a, b], [])
  {
    assert [a, b][..1] == [a];
    DiffSingleton([], a);
    assert Diff([], [a, b]) == Diff([], [a]) + [b] == [a, b];
    TickPrintsDiff([], [a, b]);
    assert Tick([], Links([a, b])).errors == [];
  }

  /** With A and B seen, a page with A and C prints only C. */
  lemma OneSeenPairTick(a: string, b: string, c: string)
    requires a != c && b != c
    ensures Tick([a, b], Links([a, c])) == Step([a, b, c], [c], [])
  {
    assert [a, c][..1] == [a];
    DiffSingleton([a, b], a);
    assert a in [a, b] && c !in [a, b];
    assert Diff([a, b], [a, c]) == Diff([a, b], [a]) + [c] == [c];
    TickPrintsDiff([a, b], [a, c]);
    assert Tick([a, b], Links([a, c])).errors == [];
  }
}

=== FILE: sequences.dfy ===
/** Generic facts about sequences used throughout the model: absence of
    duplicates and the (not necessarily contiguous) subsequence relation. */
module Sequences {

  /** No value occurs twice in `s`. */
  predicate NoDup<T(==)>(s: seq<T>)
  {
    forall i, j :: 0 <= i < j < |s| ==> s[i] != s[j]
  }

  /** `a` can be obtained from `b` by deleting elements, keeping the order of
      the rest. */
  predicate IsSubsequence<T(==)>(a: seq<T>, b: seq<T>)
    decreases |b|
  {
    || |a| == 0
    || (&& |b| > 0
        && (|| (a[|a| - 1] == b[|b| - 1] && IsSubsequence(a[..|a| - 1], b[..|b| - 1]))
            || IsSubsequence(a, b[..|b| - 1])))
  }

  /** A subsequence is never longer than the sequence it is taken from, and
      each of its elements is an element of that sequence. */
  lemma {:induction false} SubsequenceBounds<T>(a: seq<T>, b: seq<T>)
    requires IsSubsequence(a, b)
    ensures |a| <= |b|
    ensures forall x :: x in a ==> x in b
    decreases |b|
  {
    if |a| == 0 {
    } else if a[|a| - 1] == b[|b| - 1] && IsSubsequence(a[..|a| - 1], b[..|b| - 1]) {
      SubsequenceBounds(a[..|a| - 1], b[..|b| - 1]);
      assert a == a[..|a| - 1] + [a[|a| - 1]];
      assert b == b[..|b| - 1] + [b[|b| - 1]];
    } else {
      SubsequenceBounds(a, b[..|b| - 1]);
      assert b == b[..|b| - 1] + [b[|b| - 1]];
    }
  }

  /** Appending the same element to both sides keeps the relation. */
  lemma SubsequenceSnoc<T>(a: seq<T>, b: seq<T>, x: T)
    requires IsSubsequence(a, b)
    ensures IsSubsequence(a + [x], b + [x])
  {
    assert (a + [x])[..|a|] == a;
    assert (b + [x])[..|b|] == b;
  }

  /** Appending an element to the larger side keeps the relation. */
  lemma SubsequenceExtend<T>(a: seq<T>, b: seq<T>, x: T)
    requires IsSubsequence(a, b)
    ensures IsSubsequence(a, b + [x])
  {
    assert (b + [x])[..|b|] == b;
  }

  /** Concatenating two duplicate-free sequences with no common element
      gives a duplicate-free sequence. */
  lemma NoDupAppend<T>(a: seq<T>, b: seq<T>)
    requires NoDup(a) && NoDup(b)
    requires forall x :: x in b ==> x !in a
    ensures NoDup(a + b)
  {
    forall i, j | 0 <= i < j < |a + b|
      ensures (a + b)[i] != (a + b)[j]
    {
      if j < |a| {
        assert (a + b)[i] == a[i] && (a + b)[j] == a[j];
      } else if i < |a| {
        assert (a + b)[i] == a[i] && (a + b)[j] == b[j - |a|];
        assert b[j - |a|] in b;
      } else {
        assert (a + b)[i] == b[i - |a|] && (a + b)[j] == b[j - |a|];
      }
    }
  }

  /** Concatenation is associative. */
  lemma ConcatAssociative<T>(a: seq<T>, b: seq<T>, c: seq<T>)
    ensures (a + b) + c == a + (b + c)
  {
  }

  /** Every sequence is a subsequence of itself. */
  lemma {:induction false} SubsequenceReflexive<T>(s: seq<T>)
    ensures IsSubsequence(s, s)
    decreases |s|
  {
    if |s| > 0 {
      SubsequenceReflexive(s[..|s| - 1]);
    }
  }
}

=== FILE: sorting.dfy ===
/** `links.sort()` followed by `links.dedup()` (src/main.rs:121-122). */
module Sorting {
  import opened StringOrder
  import opened Sequences

  /** Inserts `x` into a sorted sequence at its place. */
  function Insert(x: string, s: seq<string>): (r: seq<string>)
    requires Sorted(s)
    ensures Sorted(r)
    ensures multiset(r) == multiset(s) + multiset{x}
    decreases |s|
  {
    if |s| == 0 then [x]
    else if LexLe(x, s[0]) then
      BelowHead(x, s);
      [x] + s
    else
      var rest := Insert(x, s[1..]);
      assert s == [s[0]] + s[1..];
      assert multiset([s[0]] + rest) == multiset([s[0]]) + multiset(rest);
      LexLeTotal(x, s[0]);
      HeadBelowInsertion(s, x, rest);
      [s[0]] + rest
  }

  /** An element at or below the head of a sorted sequence is at or below
      all of it. */
  lemma BelowHead(x: string, s: seq<string>)
    requires Sorted(s) && |s| > 0 && LexLe(x, s[0])
    ensures forall j :: 0 <= j < |s| ==> LexLe(x, s[j])
  {
    forall j | 0 <= j < |s|
      ensures LexLe(x, s[j])
    {
      if j > 0 {
        LexLeTransitive(x, s[0], s[j]);
      }
    }
  }

  /** Inserting an element no smaller than the head of a sorted sequence into
      its tail keeps every element at or above that head. */
  lemma HeadBelowInsertion(s: seq<string>, x: string, rest: seq<string>)
    requires Sorted(s) && |s| > 0 && LexLe(s[0], x)
    requires multiset(rest) == multiset(s[1..]) + multiset{x}
    ensures forall j :: 0 <= j < |rest| ==> LexLe(s[0], rest[j])
  {
    forall j | 0 <= j < |rest|
      ensures LexLe(s[0], rest[j])
    {
      assert rest[j] in multiset(rest);
      if rest[j] != x {
        assert rest[j] in multiset(s[1..]);
        var k :| 0 <= k < |s[1..]| && s[1..][k] == rest[j];
        assert s[k + 1] == rest[j];
      }
    }
  }

  /** A sort of `s`: the model of the standard library's `sort`, which is
      correct for any algorithm because a sorted permutation is unique
      (`SortedPermutationUnique`). */
  function Sort(s: seq<string>): (r: seq<string>)
    ensures Sorted(r)
    ensures multiset(r) == multiset(s)
    ensures |r| == |s|
    decreases |s|
  {
    if |s| == 0 then []
    else
      assert s == [s[0]] + s[1..];
      Insert(s[0], Sort(s[1..]))
  }

  /** Two sorted sequences with the same elements, counted with multiplicity,
      are equal: whatever sorting algorithm the standard library uses, its
      result is the one `Sort` computes. */
  lemma {:induction false} SortedPermutationUnique(a: seq<string>, b: seq<string>)
    requires Sorted(a) && Sorted(b)
    requires multiset(a) == multiset(b)
    ensures a == b
    decreases |a|
  {
    if |a| == 0 {
      assert |b| == |multiset(b)| == 0;
    } else {
      assert |b| == |multiset(b)| == |multiset(a)| == |a|;
      SortedHeadsAgree(a, b);
      MultisetTails(a, b);
      SortedPermutationUnique(a[1..], b[1..]);
      assert a == [a[0]] + a[1..];
      assert b == [b[0]] + b[1..];
    }
  }

  /** The least element of a multiset is the head of every sorted sequence
      holding it. */
  lemma SortedHeadsAgree(a: seq<string>, b: seq<string>)
    requires Sorted(a) && Sorted(b)
    requires multiset(a) == multiset(b)
    requires |a| > 0 && |b| > 0
    ensures a[0] == b[0]
  {
    assert a[0] in multiset(b);
    var k :| 0 <= k < |b| && b[k] == a[0];
    assert b[0] in multiset(a);
    var m :| 0 <= m < |a| && a[m] == b[0];
    if k > 0 {
      assert LexLe(b[0], a[0]);
    } else {
      LexLeReflexive(b[0]);
    }
    if m > 0 {
      assert LexLe(a[0], b[0]);
    } else {
      LexLeReflexive(a[0]);
    }
    LexLeAntisymmetric(a[0], b[0]);
  }

  lemma MultisetTails(a: seq<string>, b: seq<string>)
    requires |a| > 0 && |b| > 0 && a[0] == b[0]
    requires multiset(a) == multiset(b)
    ensures multiset(a[1..]) == multiset(b[1..])
  {
    assert a == [a[0]] + a[1..];
    assert b == [b[0]] + b[1..];
    assert multiset(a) == multiset([a[0]]) + multiset(a[1..]) by {
      assert multiset(a) == multiset([a[0]] + a[1..]);
    }
    assert multiset(b) == multiset([b[0]]) + multiset(b[1..]) by {
      assert multiset(b) == multiset([b[0]] + b[1..]);
    }
    assert multiset(a[1..]) == multiset(a) - multiset([a[0]]);
    assert multiset(b[1..]) == multiset(b) - multiset([b[0]]);
  }

  /** Removes consecutive repeated elements, keeping one of each run, as
      `Vec::dedup` does. */
  function Dedup(s: seq<string>): (r: seq<string>)
    ensures forall x :: x in r <==> x in s
    ensures forall i :: 0 <= i < |r| - 1 ==> r[i] != r[i + 1]
    ensures |s| > 0 ==> |r| > 0 && r[|r| - 1] == s[|s| - 1]
    decreases |s|
  {
    if |s| <= 1 then s
    else
      var init := s[..|s| - 1];
      var last := s[|s| - 1];
      var rest := Dedup(init);
      assert s == init + [last];
      assert forall x :: x in s <==> x in init || x == last;
      if last == s[|s| - 2] then
        assert last == init[|init| - 1];
        rest
      else
        var r := rest + [last];
        assert forall x :: x in r <==> x in rest || x == last;
        assert forall i :: 0 <= i < |r| - 1 ==> r[i] != r[i + 1] by {
          forall i | 0 <= i < |r| - 1
            ensures r[i] != r[i + 1]
          {
            if i < |rest| - 1 {
              assert r[i] == rest[i] && r[i + 1] == rest[i + 1];
            } else {
              assert r[i] == rest[|rest| - 1] == init[|init| - 1];
            }
          }
        }
        r
  }

  /** `dedup` only removes elements: the order of the rest is kept. */
  lemma {:induction false} DedupIsSubsequence(s: seq<string>)
    ensures IsSubsequence(Dedup(s), s)
    decreases |s|
  {
    if |s| <= 1 {
      SubsequenceReflexive(s);
    } else {
      var init := s[..|s| - 1];
      var last := s[|s| - 1];
      DedupIsSubsequence(init);
      assert s == init + [last];
      if last == s[|s| - 2] {
        assert Dedup(s) == Dedup(init);
        SubsequenceExtend(Dedup(init), init, last);
      } else {
        assert Dedup(s) == Dedup(init) + [last];
        SubsequenceSnoc(Dedup(init), init, last);
      }
    }
  }

  /** After `sort`, `dedup` leaves no duplicates at all: the result is
      strictly ascending. */
  lemma DedupOfSortedIsStrictlySorted(s: seq<string>)
    requires Sorted(s)
    ensures StrictlySorted(Dedup(s))
  {
    var r := Dedup(s);
    DedupIsSubsequence(s);
    SubsequenceOfSortedIsSorted(r, s);
    SortedAdjacentDistinctIsStrict(r);
  }

  lemma {:induction false} SubsequenceOfSortedIsSorted(a: seq<string>, b: seq<string>)
    requires IsSubsequence(a, b) && Sorted(b)
    ensures Sorted(a)
    decreases |b|
  {
    if |a| == 0 {
    } else if a[|a| - 1] == b[|b| - 1] && IsSubsequence(a[..|a| - 1], b[..|b| - 1]) {
      var ai := a[..|a| - 1];
      var bi := b[..|b| - 1];
      SubsequenceOfSortedIsSorted(ai, bi);
      SubsequenceBounds(ai, bi);
      forall i, j | 0 <= i < j < |a|
        ensures LexLe(a[i], a[j])
      {
        if j == |a| - 1 {
          assert a[i] == ai[i];
          assert a[i] in bi;
          var k :| 0 <= k < |bi| && bi[k] == a[i];
          assert LexLe(b[k], b[|b| - 1]);
        } else {
          assert a[i] == ai[i] && a[j] == ai[j];
        }
      }
    } else {
      SubsequenceOfSortedIsSorted(a, b[..|b| - 1]);
    }
  }

  lemma SortedAdjacentDistinctIsStrict(s: seq<string>)
    requires Sorted(s)
    requires forall i :: 0 <= i < |s| - 1 ==> s[i] != s[i + 1]
    ensures StrictlySorted(s)
  {
    forall i, j | 0 <= i < j < |s|
      ensures LexLess(s[i], s[j])
    {
      if s[i] == s[j] {
        assert LexLe(s[i], s[i + 1]);
        if j == i + 1 {
        } else {
          assert LexLe(s[i + 1], s[j]);
          LexLeAntisymmetric(s[i], s[i + 1]);
        }
      }
    }
  }

  /** A strictly sorted sequence holds no duplicates. */
  lemma StrictlySortedNoDup(s: seq<string>)
    requires StrictlySorted(s)
    ensures NoDup(s)
  {
  }

  /** Two strictly sorted sequences with the same elements are equal: a
      strictly sorted sequence is determined by its set of elements. */
  lemma {:induction false} StrictlySortedUnique(a: seq<string>, b: seq<string>)
    requires StrictlySorted(a) && StrictlySorted(b)
    requires forall x :: x in a <==> x in b
    ensures a == b
    decreases |a|
  {
    assert |b| > 0 ==> b[0] in b;
    if |a| > 0 {
      assert a[0] in b;
      StrictHeadsAgree(a, b);
      forall x
        ensures x in a[1..] <==> x in b[1..]
      {
        if x in a[1..] {
          var i :| 1 <= i < |a| && a[i] == x;
          assert LexLess(a[0], a[i]);
          assert x in a;
          var j :| 0 <= j < |b| && b[j] == x;
          assert b[1..][j - 1] == x;
        }
        if x in b[1..] {
          var j :| 1 <= j < |b| && b[j] == x;
          assert LexLess(b[0], b[j]);
          assert x in b;
          var i :| 0 <= i < |a| && a[i] == x;
          assert a[1..][i - 1] == x;
        }
      }
      StrictlySortedUnique(a[1..], b[1..]);
      assert a == [a[0]] + a[1..];
      assert b == [b[0]] + b[1..];
    }
  }

  /** The least member is the head of every strictly sorted sequence of the
      same members. */
  lemma StrictHeadsAgree(a: seq<string>, b: seq<string>)
    requires StrictlySorted(a) && StrictlySorted(b)
    requires forall x :: x in a <==> x in b
    requires |a| > 0 && |b| > 0
    ensures a[0] == b[0]
  {
    assert a[0] in b;
    var k :| 0 <= k < |b| && b[k] == a[0];
    assert b[0] in a;
    var m :| 0 <= m < |a| && a[m] == b[0];
    if k > 0 {
      assert LexLess(b[0], b[k]);
    } else {
      LexLeReflexive(b[0]);
    }
    if m > 0 {
      assert LexLess(a[0], a[m]);
    } else {
      LexLeReflexive(a[0]);
    }
    LexLeAntisymmetric(a[0], b[0]);
  }
}

=== FILE: string_order.dfy ===
/** The ordering `Vec<String>::sort` uses: lexicographic comparison of the
    strings' characters, a proper prefix coming first. Rust compares the UTF-8
    bytes; UTF-8 preserves the order of Unicode scalar values, so comparing
    Dafny's characters (scalar values) gives the same order. */
module StringOrder {

  /** `a <= b` in Rust's `Ord` for `String`. */
  predicate LexLe(a: string, b: string)
    decreases |a|
  {
    || |a| == 0
    || (&& |b| > 0
        && (|| a[0] < b[0]
            || (a[0] == b[0] && LexLe(a[1..], b[1..]))))
  }

  /** `a < b` in Rust's `Ord` for `String`. */
  predicate LexLess(a: string, b: string)
  {
    LexLe(a, b) && a != b
  }

  lemma {:induction false} LexLeReflexive(a: string)
    ensures LexLe(a, a)
    decreases |a|
  {
    if |a| > 0 {
      LexLeReflexive(a[1..]);
    }
  }

  lemma {:induction false} LexLeAntisymmetric(a: string, b: string)
    requires LexLe(a, b) && LexLe(b, a)
    ensures a == b
    decreases |a|
  {
    if |a| > 0 {
      LexLeAntisymmetric(a[1..], b[1..]);
      assert a == [a[0]] + a[1..];
      assert b == [b[0]] + b[1..];
    }
  }

  lemma {:induction false} LexLeTransitive(a: string, b: string, c: string)
    requires LexLe(a, b) && LexLe(b, c)
    ensures LexLe(a, c)
    decreases |a|
  {
    if |a| > 0 && a[0] == b[0] && b[0] == c[0] {
      LexLeTransitive(a[1..], b[1..], c[1..]);
    }
  }

  lemma {:induction false} LexLeTotal(a: string, b: string)
    ensures LexLe(a, b) || LexLe(b, a)
    decreases |a|
  {
    if |a| > 0 && |b| > 0 && a[0] == b[0] {
      LexLeTotal(a[1..], b[1..]);
    }
  }

  /** Ascending order, duplicates allowed: what `sort` establishes. */
  predicate Sorted(s: seq<string>)
  {
    forall i, j :: 0 <= i < j < |s| ==> LexLe(s[i], s[j])
  }

  /** Strictly ascending order: sorted and free of duplicates. */
  predicate StrictlySorted(s: seq<string>)
  {
    forall i, j :: 0 <= i < j < |s| ==> LexLess(s[i], s[j])
  }
}

=== FILE: wrappers.dfy ===
/** Optional values, used for the partial URL operations and for a pipeline
    that can abort. */
module Wrappers {

  datatype Option<+T> = None | Some(value: T)
}
